=== FILE: README.md ===
# Simple image metadata editor — a Dafny model

The editor is a small PyQt5 window. It opens an image and lists its EXIF
tags in a combo box and in a read-only transcript. The user picks one tag
and types a new value. The editor then saves a copy of the image with that
tag changed. The copy goes next to the original, named `modified_<name>`.

This project models the logic between the widgets and the libraries:

- **The EXIF edit** (`ExifPatch`). The decoded EXIF dictionary maps group
  (IFD) names to maps from tag id to value. The edit removes the
  `"thumbnail"` group. Then it overwrites the selected tag in every group
  that already holds it. `ApplyEdit` is the editor's loop over the groups
  in `saveMetadata`. It is proved equal to the specification function `Patched`, and the lemmas
  state what `Patched` promises.
- **The output path** (`PosixPath`). `os.path.dirname`,
  `os.path.basename` and `os.path.join` are modelled with `/` as the only
  separator. `ModifiedFilename` is `create_modified_filename`.
- **The tag listing** (`TagListing`). It gives one combo item and one
  `name: value` line per tag, in iteration order. The name is the tag-name
  table's entry, or the tag id in decimal. Both are instances of
  `Rendered`, which renders each entry in turn.
- **The window** (`MetadataEditor.ImageMetaEditor`). It is a class whose
  fields hold the opened image, its tags, and what the widgets show: the
  combo items, the combo's current index, the transcript lines and the
  status text. `DisplayMetadata` is the appending loop of `displayMetadata`.
  `SaveMetadata` is the guarded save. It reports success or the
  failure text, and `SaveOutcome` states its effect as a function.

The external pieces are parameters, bundled in `MetadataEditor.Library`:
the `ExifTags.TAGS` table, the formatting of a decoded value, `str.encode`,
and `piexif.load`/`piexif.dump` as an uninterpreted pair that may fail.
The opened image is an `Image` value: its file name and its raw EXIF blob.
The outcome of `img.save` is the parameter `writeError`. `SaveMetadata`
takes the line edit's text as the parameter `newValue`. It reads the
selected tag from the window's own state: the current combo item's data
(`CurrentData`), which `DisplayMetadata` and the user's `ChooseItem` set.

`Simple_Image_Metadata_Editor.py` and
`PyQt5_How_to_Extract_Image_Metadata_Using_PIL_Module_2.py` are
byte-for-byte identical. Every row below holds for both files at the same
lines; each row cites one of them.

Three behaviours of the code that are easy to miss:

- The code writes the new value into every group that holds the tag, not
  only the first (lines 150-153).
- After a save the code redraws the unchanged `self.metadata` (line 164),
  so the display still shows the old value, and the combo box's first tag
  becomes current again.
- A tag id of 0 is falsy in Python, so the guard on line 141 treats it as
  no selection.

## Model

| member | source | states |
|---|---|---|
| `ExifPatch.Patched` | PyQt5_How_to_Extract_Image_Metadata_Using_PIL_Module_2.py:147-153 | the specification of the edit: the dictionary without the thumbnail group, with the tag overwritten in each group holding it; its properties are the `Patched*` lemmas |
| `ExifPatch.ApplyEdit` | PyQt5_How_to_Extract_Image_Metadata_Using_PIL_Module_2.py:146-153 | the pop of the thumbnail group followed by the loop over all groups yields exactly `Patched`, whatever order the groups are visited in |
| `ExifPatch.PatchedGroups` | PyQt5_How_to_Extract_Image_Metadata_Using_PIL_Module_2.py:147-150 | after the edit no thumbnail group exists, and the group names are the old ones minus `"thumbnail"` (an absent thumbnail group is no error) |
| `ExifPatch.PatchedWritesEveryMatch` | PyQt5_How_to_Extract_Image_Metadata_Using_PIL_Module_2.py:150-153 | every non-thumbnail group that held the tag maps it to the new value, not only the first such group |
| `ExifPatch.PatchedChangesNothingElse` | Simple_Image_Metadata_Editor.py:150-153 | each group keeps exactly its tags (none added), groups without the tag are unchanged, other tags keep their values |
| `ExifPatch.PatchedIdempotent` | PyQt5_How_to_Extract_Image_Metadata_Using_PIL_Module_2.py:147-153 | applying the same (tag, value) edit twice gives the same dictionary as once |
| `PosixPath.SplitIndex` | PyQt5_How_to_Extract_Image_Metadata_Using_PIL_Module_2.py:179-180 | the split point of a path lies just past its last `/` (0 when it has none), so the base name has no separator |
| `PosixPath.StripTrailingSeparators` | PyQt5_How_to_Extract_Image_Metadata_Using_PIL_Module_2.py:179 | the stripped head is a prefix not ending in `/` after which only separators follow |
| `PosixPath.Basename` | PyQt5_How_to_Extract_Image_Metadata_Using_PIL_Module_2.py:180 | `os.path.basename`: the longest suffix without `/`, preceded by `/` unless it is the whole path |
| `PosixPath.Dirname` | PyQt5_How_to_Extract_Image_Metadata_Using_PIL_Module_2.py:179 | `os.path.dirname`: the head of the path (everything up to its last `/`) with only trailing separators removed; an all-separator (or empty) head is kept whole; any other head loses all its trailing `/` and is non-empty |
| `PosixPath.Join` | PyQt5_How_to_Extract_Image_Metadata_Using_PIL_Module_2.py:181 | `os.path.join` of two parts: a second part starting with `/` is the result; otherwise the result is the first part, one `/` exactly when the first part is non-empty and does not end in `/`, then the second part |
| `PosixPath.SplitIndexUnique` | PyQt5_How_to_Extract_Image_Metadata_Using_PIL_Module_2.py:179-180 | the three properties of the split point determine it |
| `PosixPath.SplitJoined` | PyQt5_How_to_Extract_Image_Metadata_Using_PIL_Module_2.py:179-181 | joining a directory of the shape `dirname` returns with a plain name splits back into exactly that directory and name |
| `PosixPath.ModifiedFilename` | PyQt5_How_to_Extract_Image_Metadata_Using_PIL_Module_2.py:169-181 | `create_modified_filename`: the directory joined with the prefixed base name; its properties are the `ModifiedFilename*` lemmas |
| `PosixPath.ModifiedFilenameKeepsDirectory` | PyQt5_How_to_Extract_Image_Metadata_Using_PIL_Module_2.py:179-181 | the output path's directory equals the input's directory |
| `PosixPath.ModifiedFilenameBasename` | Simple_Image_Metadata_Editor.py:179-181 | the output path's base name is `"modified_"` followed by the input's base name |
| `PosixPath.ModifiedFilenameWithoutDirectory` | Simple_Image_Metadata_Editor.py:169-181 | a path with no `/` becomes `"modified_"` followed by the path |
| `PosixPath.JoinRestoresHead` | PyQt5_How_to_Extract_Image_Metadata_Using_PIL_Module_2.py:179-181 | joining the directory `dirname` takes from a head that ends in a single `/` (or is all separators) with a plain name gives back the head followed by the name |
| `PosixPath.ModifiedFilenameSplicesPrefix` | PyQt5_How_to_Extract_Image_Metadata_Using_PIL_Module_2.py:169-181 | unless the directory part ends in a doubled `/` after a real name (which `dirname` collapses), the output is the input with `"modified_"` inserted before the base name |
| `TagListing.NaturalString` | PyQt5_How_to_Extract_Image_Metadata_Using_PIL_Module_2.py:111-112 | the decimal form of a natural number is a non-empty digit string without a leading zero, one digit long exactly below 10 |
| `TagListing.DecimalString` | PyQt5_How_to_Extract_Image_Metadata_Using_PIL_Module_2.py:111-112 | `str` of an id: `"0"` for 0, otherwise digits without a leading zero, after a `-` for a negative id |
| `TagListing.NaturalStringRoundTrip` | PyQt5_How_to_Extract_Image_Metadata_Using_PIL_Module_2.py:111-112 | reading the decimal digits back gives the number |
| `TagListing.DecimalStringRoundTrip` | PyQt5_How_to_Extract_Image_Metadata_Using_PIL_Module_2.py:111-112 | `str` of a tag id is non-empty and parses back to the id, negative ids included |
| `TagListing.LabelSpec` | PyQt5_How_to_Extract_Image_Metadata_Using_PIL_Module_2.py:111 | a known tag is labelled with its table name; an unknown tag's label spells its id; labels are non-empty when the table has no empty names |
| `TagListing.Label` | PyQt5_How_to_Extract_Image_Metadata_Using_PIL_Module_2.py:111 | `TAGS.get(tag_id, tag_id)` formatted as text; an unknown id's label is never empty (see `LabelSpec`) |
| `TagListing.Rendered` | PyQt5_How_to_Extract_Image_Metadata_Using_PIL_Module_2.py:110-113 | the loop over the entries: one rendered element per entry (per-index contents in `RenderedAt`) |
| `TagListing.RenderedAt` | PyQt5_How_to_Extract_Image_Metadata_Using_PIL_Module_2.py:110-113 | element `k` of the rendering is the rendering of entry `k`, for every `k` |
| `TagListing.Items` | PyQt5_How_to_Extract_Image_Metadata_Using_PIL_Module_2.py:110-112 | the combo items for the entries, one per entry (per-index contents in `ItemsSpec`) |
| `TagListing.Lines` | PyQt5_How_to_Extract_Image_Metadata_Using_PIL_Module_2.py:110-113 | the transcript lines for the entries, one per entry (per-index contents in `LinesSpec`) |
| `TagListing.ItemsSpec` | PyQt5_How_to_Extract_Image_Metadata_Using_PIL_Module_2.py:110-112 | one combo item per entry, in iteration order, labelled by the tag's name and carrying the tag id |
| `TagListing.LinesSpec` | PyQt5_How_to_Extract_Image_Metadata_Using_PIL_Module_2.py:110-113 | one transcript line per entry, in iteration order: the entry's label, `": "`, and its formatted value |
| `MetadataEditor.HasMetadata` | PyQt5_How_to_Extract_Image_Metadata_Using_PIL_Module_2.py:107 | Python truthiness of `self.metadata`: present and not empty |
| `MetadataEditor.Armed` | PyQt5_How_to_Extract_Image_Metadata_Using_PIL_Module_2.py:141 | the guard `current_tag_id and new_value`: a selected id that is not 0 and a non-empty text |
| `MetadataEditor.SaveOutcome` | Simple_Image_Metadata_Editor.py:138-167 | the effect of a save: skipped, the failure text of the first step that raises (missing image, missing EXIF blob, load, dump, write), or the path and blob written |
| `MetadataEditor.SaveSkippedExactlyWhenUnarmed` | PyQt5_How_to_Extract_Image_Metadata_Using_PIL_Module_2.py:138-141 | a save does nothing exactly when no tag is selected, the tag id is 0, or the new text is empty |
| `MetadataEditor.SavedFileIsPatchedCopy` | PyQt5_How_to_Extract_Image_Metadata_Using_PIL_Module_2.py:141-163 | a successful save writes the encoding of the patched decoded EXIF, in the original's directory, under the prefixed base name |
| `MetadataEditor.ReopenedCopyShowsEdit` | PyQt5_How_to_Extract_Image_Metadata_Using_PIL_Module_2.py:144-157 | when the codec reads back the selected tag in a set of kept groups (`ReadsBackTag`), reopening the saved blob shows the new text in every kept group that held the tag |
| `MetadataEditor.ImageMetaEditor.constructor` | PyQt5_How_to_Extract_Image_Metadata_Using_PIL_Module_2.py:11-15 | a new window has no image, no metadata and empty widgets |
| `MetadataEditor.ImageMetaEditor.CurrentData` | PyQt5_How_to_Extract_Image_Metadata_Using_PIL_Module_2.py:138 | `tagCombo.currentData()`: the id carried by the current item, or none when no item is current |
| `MetadataEditor.ImageMetaEditor.ChooseItem` | PyQt5_How_to_Extract_Image_Metadata_Using_PIL_Module_2.py:138 | the user's choice of a combo item makes its id the current data |
| `MetadataEditor.ImageMetaEditor.DisplayMetadata` | PyQt5_How_to_Extract_Image_Metadata_Using_PIL_Module_2.py:96-115 | with metadata, the combo and transcript are rebuilt as `Items` and `Lines` and the first tag becomes current; without (None or empty), only the transcript is set to "No metadata found." and the combo keeps its items and current item |
| `MetadataEditor.ImageMetaEditor.LoadImage` | PyQt5_How_to_Extract_Image_Metadata_Using_PIL_Module_2.py:77-94 | the opened image and its decoded tags become current and are displayed as `DisplayMetadata` does |
| `MetadataEditor.ImageMetaEditor.SaveMetadata` | Simple_Image_Metadata_Editor.py:117-167 | the effect is `SaveOutcome` of the combo's current data; when skipped nothing changes; on failure only the status changes, to `'Failed to save metadata: ' + msg`, with no refresh; on success the display is redrawn from the unchanged metadata, the first item (index 0) becomes current, and the status names the new path |

## Left out

- The PyQt5 widgets, layout, window settings, signal wiring, the file dialog of `openImage` and the application start-up. They hold no logic beyond the widget state kept in the class fields.
- `Image.open`, `_getexif` and `img.save` are file I/O. `LoadImage` receives the opened image and its decoded tags, and `SaveMetadata` receives the outcome of writing. The file system itself, and any partial file a failed write leaves, are not modelled.
- `piexif.load` and `piexif.dump` are a foreign binary codec. They are the uninterpreted functions `Library.load` and `Library.dump`.
- The contents of `ExifTags.TAGS`, the bytes `str.encode` produces and the text of a formatted value are parameters of `Library`.
- The `"thumbnail"` group is a byte string in `piexif`, not a tag map. The model gives it the same type as the other groups; the edit removes it before looking at any group, so its contents never matter.
- The order in which `for ifd_name in exif_dict` visits the groups is not modelled; `ApplyEdit` visits them in an arbitrary order and its result does not depend on it.
- The combo box's current index follows Qt's rules as the code exercises them: `clear` leaves no current item and the first item added becomes current. Qt's other selection behaviour (keyboard navigation, signals on index change) is not modelled; a user's choice is `ChooseItem`.
- The two views of the EXIF data (the flat tag view of `_getexif`, shown by the listing, and the grouped `piexif` dictionary, which the edit changes) are related only through the tag id.
- MetadataEditor.ReopenedCopyShowsEdit: assumes the codec reads back the selected tag in the groups `kept` (`ReadsBackTag`), and concludes only for those groups. `piexif.dump` writes only the groups it knows (`"0th"`, `"Exif"`, `"GPS"`, `"Interop"`, `"1st"`) and drops any other name. It writes `"1st"` only together with a thumbnail, so once the edit pops `"thumbnail"` a tag in `"1st"` does not survive the save; `"1st"` belongs outside `kept`. Its dump also rewrites the IFD pointer tags (Exif, GPS and Interop offsets), so editing one of those is not covered. `piexif.dump` also encodes each value by the tag's declared EXIF type. For a SHORT, LONG, RATIONAL or BYTE tag (Orientation, XResolution, ISOSpeedRatings, the XP* tags) it packs the bytes of the typed text as numbers, and `piexif.load` returns a number or a tuple, not those bytes. For such numeric tags the saved copy does not read back the typed text. The hypothesis can hold only for an ASCII or UNDEFINED tag (such as Make, Model, Artist or DateTime) that is not a pointer, with `kept` among `"0th"`, `"Exif"`, `"GPS"`, `"Interop"`. The codec itself is not modelled, so that `piexif` meets the predicate there is not proved.
- The JPEG output format is an argument passed to `img.save`; a failure to convert is one of the `writeError` outcomes.
- Path handling follows POSIX with a single separator `/`; other platforms' rules are not modelled.
- Transcript lines are kept as the strings appended; how the text widget would split a value containing a newline is not modelled.

=== FILE: exif_patch.dfy ===
/**
 * The in-place edit that the editor applies to a decoded EXIF dictionary
 * between decoding and re-encoding it: drop the thumbnail group, then
 * overwrite the selected tag in every group that already holds it.
 */
module ExifPatch {

  /** A byte of an encoded value or of an EXIF blob. */
  newtype byte = b: int | 0 <= b < 256

  type Bytes = seq<byte>

  /** EXIF tag identifiers are integers. */
  type TagId = int

  /** A decoded EXIF dictionary: group (IFD) name to a map from tag id to value. */
  type ExifDict<V> = map<string, map<TagId, V>>

  /** The group holding the embedded thumbnail, which the edit always removes. */
  const Thumbnail: string := "thumbnail"

  /** The dictionary after the edit: the thumbnail group is gone, and every
      remaining group that holds `tag` maps it to `value`. */
  function Patched<V>(exif: ExifDict<V>, tag: TagId, value: V): ExifDict<V>
  {
    map g | g in exif && g != Thumbnail :: if tag in exif[g] then exif[g][tag := value] else exif[g]
  }

  /** The edit as `saveMetadata` performs it: a `pop` of the thumbnail group with a
      default (so a missing group is not an error), then a pass over every
      remaining group that assigns the new value wherever the tag is present.
      The groups are visited in an arbitrary order; the result does not depend on it. */
  method ApplyEdit<V>(exif: ExifDict<V>, tag: TagId, value: V) returns (patched: ExifDict<V>)
    ensures patched == Patched(exif, tag, value)
  {
    patched := exif - {Thumbnail};
    var pending := patched.Keys;
    while pending != {}
      invariant patched.Keys == exif.Keys - {Thumbnail}
      invariant pending <= patched.Keys
      invariant forall g :: g in pending ==> patched[g] == exif[g]
      invariant forall g :: g in patched && g !in pending ==> patched[g] == Patched(exif, tag, value)[g]
      decreases pending
    {
      var g :| g in pending;
      if tag in patched[g] {
        patched := patched[g := patched[g][tag := value]];
      }
      pending := pending - {g};
    }
  }

  /** After the edit there is no thumbnail group, and the group names are
      exactly those before it minus the thumbnail group. */
  lemma PatchedGroups<V>(exif: ExifDict<V>, tag: TagId, value: V)
    ensures Thumbnail !in Patched(exif, tag, value)
    ensures Patched(exif, tag, value).Keys == exif.Keys - {Thumbnail}
  {
  }

  /** Every remaining group that held the tag now maps it to the new value,
      however many such groups there are. */
  lemma PatchedWritesEveryMatch<V>(exif: ExifDict<V>, tag: TagId, value: V)
    ensures forall g :: g in exif && g != Thumbnail && tag in exif[g] ==>
      g in Patched(exif, tag, value) && tag in Patched(exif, tag, value)[g] && Patched(exif, tag, value)[g][tag] == value
  {
  }

  /** Nothing else changes: each group keeps its set of tags (no tag is added),
      groups without the tag are unchanged, and every other tag keeps its value. */
  lemma PatchedChangesNothingElse<V>(exif: ExifDict<V>, tag: TagId, value: V)
    ensures forall g :: g in Patched(exif, tag, value) ==> Patched(exif, tag, value)[g].Keys == exif[g].Keys
    ensures forall g :: g in Patched(exif, tag, value) && tag !in exif[g] ==> Patched(exif, tag, value)[g] == exif[g]
    ensures forall g, t :: g in Patched(exif, tag, value) && t in exif[g] && t != tag ==> Patched(exif, tag, value)[g][t] == exif[g][t]
  {
  }

  /** Applying the same edit twice gives the same dictionary as applying it once. */
  lemma PatchedIdempotent<V>(exif: ExifDict<V>, tag: TagId, value: V)
    ensures Patched(Patched(exif, tag, value), tag, value) == Patched(exif, tag, value)
  {
    var once := Patched(exif, tag, value);
    var twice := Patched(once, tag, value);
    assert twice.Keys == once.Keys;
    forall g | g in once
      ensures twice[g] == once[g]
    {
      if tag in exif[g] {
        assert once[g][tag := value] == once[g];
      }
    }
  }
}

=== FILE: metadata_editor.dfy ===
/**
 * The editor window's state and its three actions: loading an image,
 * showing its tags, and saving a copy with one tag changed. Widgets are
 * reduced to the state they hold (the combo box's items and current index,
 * the transcript's lines, the status label's text); the image library, the EXIF codec and
 * the tag-name table are parameters.
 */
module MetadataEditor {
  import opened Wrappers
  import opened ExifPatch
  import opened PosixPath
  import opened TagListing

  /** The external pieces the editor calls into. */
  datatype Library<!V> = Library(
    tagNames: map<int, string>,                  // `ExifTags.TAGS`
    show: V -> string,                           // formatting of a decoded value in an f-string
    encode: string -> V,                         // `str(new_value).encode()`
    load: Bytes -> Result<ExifDict<V>, string>,  // `piexif.load`, or the text of what it raises
    dump: ExifDict<V> -> Result<Bytes, string>)  // `piexif.dump`, or the text of what it raises

  /** An opened image: its file name and the raw EXIF blob in its `info`, if any. */
  datatype Image = Image(filename: string, exif: Option<Bytes>)

  /** What one press of the save button does. */
  datatype SaveEffect =
    | Skipped                              // guard not met: nothing happens
    | Saved(path: string, exifBlob: Bytes) // a copy was written with this EXIF blob
    | Failed(message: string)              // something raised; only the status reports it

  const NoMetadataText: string := "No metadata found."
  const SavedPrefix: string := "Metadata saved to "
  const FailedPrefix: string := "Failed to save metadata: "
  /** What Python says when the editor has no image yet and reads `self.img.info`. */
  const NoImageError: string := "'NoneType' object has no attribute 'info'"
  /** What Python says for the `KeyError` of an image whose `info` has no EXIF blob. */
  const MissingExifError: string := "'exif'"

  /** Python truthiness of `self.metadata`: present and not empty. */
  predicate HasMetadata<V>(md: Option<Metadata<V>>)
  {
    md.Some? && md.value != []
  }

  /** The save guard `current_tag_id and new_value`: a tag is selected, its id
      is not 0 (falsy), and the new text is not empty. */
  predicate Armed(selected: Option<int>, newValue: string)
  {
    selected.Some? && selected.value != 0 && newValue != ""
  }

  /** The effect of one save, from the current image, the combo box's current
      data, the typed text, the libraries and the outcome of writing the file
      (`Some(msg)` when `img.save` raises). */
  function SaveOutcome<V>(img: Option<Image>, selected: Option<int>, newValue: string,
                          lib: Library<V>, writeError: Option<string>): SaveEffect
  {
    if !Armed(selected, newValue) then Skipped
    else if img.None? then Failed(NoImageError)
    else if img.value.exif.None? then Failed(MissingExifError)
    else match lib.load(img.value.exif.value)
      case Failure(e) => Failed(e)
      case Success(exifDict) =>
        match lib.dump(Patched(exifDict, selected.value, lib.encode(newValue)))
        case Failure(e) => Failed(e)
        case Success(blob) =>
          if writeError.Some? then Failed(writeError.value)
          else Saved(ModifiedFilename(img.value.filename), blob)
  }

  /** The codec reads back tag `t` in the groups `kept`: whenever it encodes
      a dictionary, decoding the blob succeeds and every kept group other than
      the thumbnail that held `t` still maps it to the same value. Nothing is
      assumed about other tags, nor about groups outside `kept`, which a real
      codec may rewrite, add or drop. */
  ghost predicate ReadsBackTag<V(!new)>(lib: Library<V>, kept: set<string>, t: TagId)
  {
    forall d: ExifDict<V> :: lib.dump(d).Success? ==>
      var back := lib.load(lib.dump(d).value);
      back.Success? &&
      forall g :: g in d && g in kept && g != Thumbnail && t in d[g] ==>
        g in back.value && t in back.value[g] && back.value[g][t] == d[g][t]
  }

  /** A save does nothing exactly when the guard is not met; in particular a
      selected tag id of 0 counts as no selection. */
  lemma SaveSkippedExactlyWhenUnarmed<V>(img: Option<Image>, selected: Option<int>, newValue: string,
                                          lib: Library<V>, writeError: Option<string>)
    ensures SaveOutcome(img, selected, newValue, lib, writeError).Skipped? <==>
      (selected.None? || selected.value == 0 || newValue == "")
  {
  }

  /** A successful save writes, next to the original and under its base name
      with the prefix, the encoding of the decoded EXIF with the edit applied. */
  lemma SavedFileIsPatchedCopy<V>(img: Option<Image>, selected: Option<int>, newValue: string,
                                  lib: Library<V>, writeError: Option<string>)
    requires SaveOutcome(img, selected, newValue, lib, writeError).Saved?
    // which branch of SaveOutcome was taken:
    ensures Armed(selected, newValue) && writeError.None?
    ensures img.Some? && img.value.exif.Some? && lib.load(img.value.exif.value).Success?
    ensures lib.dump(Patched(lib.load(img.value.exif.value).value, selected.value, lib.encode(newValue)))
      == Success(SaveOutcome(img, selected, newValue, lib, writeError).exifBlob)
    // where the copy goes, which the path lemmas establish:
    ensures Dirname(SaveOutcome(img, selected, newValue, lib, writeError).path) == Dirname(img.value.filename)
    ensures Basename(SaveOutcome(img, selected, newValue, lib, writeError).path) == ModifiedPrefix + Basename(img.value.filename)
  {
    var path := SaveOutcome(img, selected, newValue, lib, writeError).path;
    assert path == ModifiedFilename(img.value.filename);
    ModifiedFilenameKeepsDirectory(img.value.filename);
    ModifiedFilenameBasename(img.value.filename);
  }

  /** When the codec reads back the selected tag in the groups `kept`,
      decoding the saved blob gives a dictionary in which every kept group
      (other than the thumbnail) that held the tag now maps it to the encoded
      new text. */
  lemma ReopenedCopyShowsEdit<V(!new)>(img: Option<Image>, selected: Option<int>, newValue: string,
                                       lib: Library<V>, writeError: Option<string>, kept: set<string>)
    requires SaveOutcome(img, selected, newValue, lib, writeError).Saved?
    requires selected.Some? && ReadsBackTag(lib, kept, selected.value)
    ensures img.Some? && img.value.exif.Some? && lib.load(img.value.exif.value).Success?
    ensures lib.load(SaveOutcome(img, selected, newValue, lib, writeError).exifBlob).Success?
    ensures var before := lib.load(img.value.exif.value).value;
            var after := lib.load(SaveOutcome(img, selected, newValue, lib, writeError).exifBlob).value;
            forall g :: g in before && g in kept && g != Thumbnail && selected.value in before[g] ==>
              g in after && selected.value in after[g] && after[g][selected.value] == lib.encode(newValue)
  {
    var before := lib.load(img.value.exif.value).value;
    var patched := Patched(before, selected.value, lib.encode(newValue));
    assert lib.dump(patched).Success?;
    PatchedWritesEveryMatch(before, selected.value, lib.encode(newValue));
  }

  /** The editor window. */
  class ImageMetaEditor<V> {
    var img: Option<Image>
    /** The flat tag view of the opened image, or `None` when it has no EXIF. */
    var metadata: Option<Metadata<V>>
    /** The tag combo box's items. */
    var combo: seq<ComboItem>
    /** The combo box's current index; -1 when nothing is current. */
    var currentIndex: int
    /** The read-only transcript's lines. */
    var transcript: seq<string>
    /** The status label's text. */
    var status: string

    /** `tagCombo.currentData()`: the tag id of the current item, if any. */
    function CurrentData(): Option<int>
      reads this
    {
      if 0 <= currentIndex < |combo| then Some(combo[currentIndex].data) else None
    }

    constructor ()
      ensures img.None? && metadata.None?
      ensures combo == [] && currentIndex == -1 && transcript == [] && status == ""
    {
      img := None;
      metadata := None;
      combo := [];
      currentIndex := -1;
      transcript := [];
      status := "";
    }

    /** The user picks an item of the combo box. */
    method ChooseItem(k: nat)
      requires k < |combo|
      modifies this`currentIndex
      ensures currentIndex == k && CurrentData() == Some(combo[k].data)
    {
      currentIndex := k;
    }

    /** Shows the current metadata: when there is some, the combo box and the
        transcript are rebuilt from it, one item and one line per tag in
        iteration order, and the combo box's first item becomes current
        (clearing leaves no current item, and the first item added to an
        empty combo box becomes current); otherwise only the transcript
        changes, to a single notice, and the combo box keeps its items and
        its current item. */
    method DisplayMetadata(lib: Library<V>)
      modifies this`combo, this`currentIndex, this`transcript
      ensures HasMetadata(metadata) ==>
        && combo == Items(lib.tagNames, metadata.value)
        && transcript == Lines(lib.tagNames, lib.show, metadata.value)
        && currentIndex == 0 && CurrentData() == Some(metadata.value[0].id)
      ensures !HasMetadata(metadata) ==>
        combo == old(combo) && currentIndex == old(currentIndex) && transcript == [NoMetadataText]
    {
      if HasMetadata(metadata) {
        var md := metadata.value;
        transcript := [];
        combo, currentIndex := [], -1;
        var i := 0;
        while i < |md|
          invariant 0 <= i <= |md|
          invariant combo == Items(lib.tagNames, md[..i])
          invariant transcript == Lines(lib.tagNames, lib.show, md[..i])
          invariant currentIndex == if i == 0 then -1 else 0
        {
          var tag := Label(lib.tagNames, md[i].id);
          combo := combo + [ComboItem(tag, md[i].id)];
          if currentIndex == -1 {
            currentIndex := 0;
          }
          transcript := transcript + [tag + ": " + lib.show(md[i].value)];
          assert md[..i + 1][..i] == md[..i];
          i := i + 1;
        }
        assert md[..|md|] == md;
        ItemsSpec(lib.tagNames, md);
      } else {
        transcript := [NoMetadataText];
      }
    }

    /** Makes `image` the current image with its decoded tags and shows them. */
    method LoadImage(image: Image, decoded: Option<Metadata<V>>, lib: Library<V>)
      modifies this`img, this`metadata, this`combo, this`currentIndex, this`transcript
      ensures img == Some(image) && metadata == decoded
      ensures HasMetadata(decoded) ==>
        && combo == Items(lib.tagNames, decoded.value)
        && transcript == Lines(lib.tagNames, lib.show, decoded.value)
        && currentIndex == 0 && CurrentData() == Some(decoded.value[0].id)
      ensures !HasMetadata(decoded) ==>
        combo == old(combo) && currentIndex == old(currentIndex) && transcript == [NoMetadataText]
    {
      img := Some(image);
      metadata := decoded;
      DisplayMetadata(lib);
    }

    /** Saves a copy of the image with the current tag changed to `newValue`.
        When the guard is not met nothing changes. When anything raises, only
        the status changes, to the failure text. On success the display is
        refreshed from the unchanged `metadata` (so it still shows the old
        value, and the first tag, not the edited one, becomes current) and
        the status names the new file. */
    method SaveMetadata(newValue: string, lib: Library<V>, writeError: Option<string>)
      returns (effect: SaveEffect)
      modifies this`combo, this`currentIndex, this`transcript, this`status
      ensures effect == SaveOutcome(img, old(CurrentData()), newValue, lib, writeError)
      ensures !effect.Saved? ==>
        combo == old(combo) && currentIndex == old(currentIndex) && transcript == old(transcript)
      ensures effect.Skipped? ==> status == old(status)
      ensures effect.Failed? ==> status == FailedPrefix + effect.message
      ensures effect.Saved? ==> status == SavedPrefix + effect.path
      ensures effect.Saved? && HasMetadata(metadata) ==>
        && combo == Items(lib.tagNames, metadata.value)
        && transcript == Lines(lib.tagNames, lib.show, metadata.value)
        && currentIndex == 0 && CurrentData() == Some(metadata.value[0].id)
      ensures effect.Saved? && !HasMetadata(metadata) ==>
        combo == old(combo) && currentIndex == old(currentIndex) && transcript == [NoMetadataText]
    {
      var selected := CurrentData();
      effect := Skipped;
      if Armed(selected, newValue) {
        if img.None? {
          effect := Failed(NoImageError);
        } else if img.value.exif.None? {
          effect := Failed(MissingExifError);
        } else {
          match lib.load(img.value.exif.value)
          case Failure(e) =>
            effect := Failed(e);
          case Success(exifDict) =>
            var patched := ApplyEdit(exifDict, selected.value, lib.encode(newValue));
            match lib.dump(patched)
            case Failure(e) =>
              effect := Failed(e);
            case Success(blob) =>
              var path := ModifiedFilename(img.value.filename);
              if writeError.Some? {
                effect := Failed(writeError.value);
              } else {
                DisplayMetadata(lib);
                status := SavedPrefix + path;
                effect := Saved(path, blob);
              }
        }
        if effect.Failed? {
          status := FailedPrefix + effect.message;
        }
      }
    }
  }
}

=== FILE: posix_path.dfy ===
/**
 * POSIX path splitting and joining, as `os.path.dirname`, `os.path.basename`
 * and `os.path.join` do it with `/` as the only separator, and the output
 * name the editor derives from the name of the opened image.
 */
module PosixPath {

  const Sep: char := '/'

  /** The prefix put in front of the base name of the saved copy. */
  const ModifiedPrefix: string := "modified_"

  /** The split point of a path: just past its last separator, or 0 when it has none. */
  function SplitIndex(p: string): (i: nat)
    ensures i <= |p|
    ensures Sep !in p[i..]
    ensures i > 0 ==> p[i - 1] == Sep
  {
    if p == [] then 0
    else if p[|p| - 1] == Sep then |p|
    else
      var i := SplitIndex(p[..|p| - 1]);
      assert p[i..] == p[..|p| - 1][i..] + [p[|p| - 1]];
      i
  }

  predicate AllSeparators(s: string)
  {
    forall k :: 0 <= k < |s| ==> s[k] == Sep
  }

  /** `s.rstrip("/")`: the longest prefix of `s` that does not end in a separator
      and after which only separators follow. */
  function StripTrailingSeparators(s: string): (r: string)
    ensures r <= s
    ensures r == [] || r[|r| - 1] != Sep
    ensures AllSeparators(s[|r|..])
  {
    if s != [] && s[|s| - 1] == Sep then
      var r := StripTrailingSeparators(s[..|s| - 1]);
      assert s[|r|..] == s[..|s| - 1][|r|..] + [Sep];
      r
    else s
  }

  /** `os.path.basename`: everything after the last separator. */
  function Basename(p: string): (b: string)
    ensures |b| <= |p| && p[|p| - |b|..] == b
    ensures Sep !in b
    ensures |b| < |p| ==> p[|p| - |b| - 1] == Sep
  {
    p[SplitIndex(p)..]
  }

  /** Everything up to and including the last separator. */
  function Head(p: string): string
  {
    p[..SplitIndex(p)]
  }

  /** `os.path.dirname`: everything up to the last separator, with trailing
      separators removed unless the head consists of separators only. */
  function Dirname(p: string): (d: string)
    ensures d <= Head(p)
    ensures AllSeparators(Head(p)[|d|..])
    ensures AllSeparators(Head(p)) ==> d == Head(p)
    ensures !AllSeparators(Head(p)) ==> d != [] && d[|d| - 1] != Sep
  {
    var head := Head(p);
    if head != [] && !AllSeparators(head) then StripTrailingSeparators(head) else head
  }

  /** `os.path.join(a, b)` for two components. */
  function Join(a: string, b: string): (r: string)
    ensures |b| <= |r| && r[|r| - |b|..] == b
    ensures (b == [] || b[0] != Sep) ==> a <= r
    ensures b != [] && b[0] == Sep ==> r == b
    ensures (b == [] || b[0] != Sep) ==>
      |r| == |a| + |b| + (if a != [] && a[|a| - 1] != Sep then 1 else 0) &&
      (a != [] && a[|a| - 1] != Sep ==> r[|a|] == Sep)
  {
    if |b| > 0 && b[0] == Sep then b
    else if a == [] || a[|a| - 1] == Sep then a + b
    else a + [Sep] + b
  }

  /** `create_modified_filename`: the directory of the path joined with the
      prefixed base name. */
  function ModifiedFilename(p: string): string
  {
    Join(Dirname(p), ModifiedPrefix + Basename(p))
  }

  /** The three properties of its contract determine the split point. */
  lemma SplitIndexUnique(p: string, i: nat)
    requires i <= |p|
    requires Sep !in p[i..]
    requires i > 0 ==> p[i - 1] == Sep
    ensures SplitIndex(p) == i
  {
  }

  /** A path made of a directory part that is empty or ends in a separator,
      followed by a name without separators, splits between the two. */
  lemma SplitIndexAfterDirectory(d: string, name: string)
    requires d == [] || d[|d| - 1] == Sep
    requires Sep !in name
    ensures SplitIndex(d + name) == |d|
  {
    assert (d + name)[|d|..] == name;
    SplitIndexUnique(d + name, |d|);
  }

  /** Joining a directory of the shape `Dirname` produces with a plain name
      gives a path that splits back into that directory and that name. */
  lemma SplitJoined(d: string, name: string)
    requires d == [] || d[|d| - 1] != Sep || AllSeparators(d)
    requires name != [] && name[0] != Sep && Sep !in name
    ensures Dirname(Join(d, name)) == d
    ensures Basename(Join(d, name)) == name
  {
    if d == [] || d[|d| - 1] == Sep {
      SplitIndexAfterDirectory(d, name);
      assert (d + name)[..|d|] == d;
    } else {
      var head := d + [Sep];
      SplitIndexAfterDirectory(head, name);
      assert Join(d, name) == head + name;
      assert (head + name)[..|head|] == head;
      assert head[..|d|] == d;
    }
  }

  /** The prefixed base name is a plain name: non-empty, without separators. */
  lemma PrefixedNameIsPlain(base: string)
    requires Sep !in base
    ensures ModifiedPrefix + base != [] && (ModifiedPrefix + base)[0] != Sep && Sep !in ModifiedPrefix + base
  {
    assert Sep !in ModifiedPrefix;
  }

  /** The saved copy lies in the same directory as the original. */
  lemma ModifiedFilenameKeepsDirectory(p: string)
    ensures Dirname(ModifiedFilename(p)) == Dirname(p)
  {
    var base := Basename(p);
    PrefixedNameIsPlain(base);
    SplitJoined(Dirname(p), ModifiedPrefix + base);
  }

  /** The base name of the saved copy is the original base name with the prefix. */
  lemma ModifiedFilenameBasename(p: string)
    ensures Basename(ModifiedFilename(p)) == ModifiedPrefix + Basename(p)
  {
    var base := Basename(p);
    PrefixedNameIsPlain(base);
    SplitJoined(Dirname(p), ModifiedPrefix + base);
  }

  /** A path without a directory component just gets the prefix. */
  lemma ModifiedFilenameWithoutDirectory(p: string)
    requires Sep !in p
    ensures ModifiedFilename(p) == ModifiedPrefix + p
  {
    SplitIndexUnique(p, 0);
  }

  /** Unless the directory part ends in a doubled separator after a real
      directory name (which `Dirname` collapses), the saved path is the
      original path with the prefix spliced in front of the base name. */
  lemma ModifiedFilenameSplicesPrefix(p: string)
    requires |Head(p)| < 2 || Head(p)[|Head(p)| - 2] != Sep || AllSeparators(Head(p))
    ensures ModifiedFilename(p) == Head(p) + ModifiedPrefix + Basename(p)
  {
    var base := Basename(p);
    PrefixedNameIsPlain(base);
    JoinRestoresHead(Head(p), Dirname(p), ModifiedPrefix + base);
    assert Head(p) + (ModifiedPrefix + base) == Head(p) + ModifiedPrefix + base;
  }

  /** Joining the directory that `Dirname` takes from a head ending in at most
      one separator after a real name (or from an all-separator head) with a
      plain name gives back the head followed by the name. */
  lemma JoinRestoresHead(head: string, d: string, name: string)
    requires d <= head && AllSeparators(head[|d|..])
    requires AllSeparators(head) ==> d == head
    requires !AllSeparators(head) ==> d != [] && d[|d| - 1] != Sep
    requires head == [] || head[|head| - 1] == Sep
    requires |head| < 2 || head[|head| - 2] != Sep || AllSeparators(head)
    requires name != [] && name[0] != Sep
    ensures Join(d, name) == head + name
  {
    if !AllSeparators(head) {
      assert |d| == |head| - 1 by {
        assert |d| != |head|;
        assert head[|head| - 2] != Sep;
        assert forall k :: |d| <= k < |head| ==> head[|d|..][k - |d|] == head[k];
      }
      assert head == d + [Sep];
    }
  }
}

=== FILE: tag_listing.dfy ===
/**
 * What the editor shows for decoded metadata: one selectable item per tag,
 * carrying the tag id, and one `name: value` transcript line per tag, both in
 * the metadata's iteration order. A tag's name comes from the EXIF tag-name
 * table, or is its numeric id written in decimal when the table lacks it.
 */
module TagListing {

  /** One decoded tag as the image library reports it. */
  datatype Entry<V> = Entry(id: int, value: V)

  /** A decoded metadata dictionary, as its entries in iteration order. */
  type Metadata<V> = seq<Entry<V>>

  /** A combo-box item: its displayed text and the tag id it carries as data. */
  datatype ComboItem = ComboItem(text: string, data: int)

  predicate IsDigits(s: string)
  {
    forall k :: 0 <= k < |s| ==> '0' <= s[k] <= '9'
  }

  function DigitChar(d: nat): char
    requires d < 10
  {
    ('0' as int + d) as char
  }

  /** The decimal digits of a natural number, without leading zeros. */
  function NaturalString(n: nat): (s: string)
    ensures |s| > 0 && IsDigits(s)
    ensures n < 10 <==> |s| == 1
    ensures n > 0 ==> s[0] != '0'
  {
    if n < 10 then [DigitChar(n)] else NaturalString(n / 10) + [DigitChar(n % 10)]
  }

  /** `str(n)` for an integer. */
  function DecimalString(n: int): (s: string)
    ensures n >= 0 ==> |s| > 0 && IsDigits(s) && (n == 0 || s[0] != '0')
    ensures n == 0 ==> s == "0"
    ensures n < 0 ==> |s| > 1 && s[0] == '-' && IsDigits(s[1..]) && s[1] != '0'
  {
    if n < 0 then "-" + NaturalString(-n) else NaturalString(n)
  }

  /** The value of a string of decimal digits. */
  function DigitsValue(s: string): int
  {
    if s == [] then 0 else DigitsValue(s[..|s| - 1]) * 10 + (s[|s| - 1] as int - '0' as int)
  }

  /** `int(s)` for an optionally signed string of decimal digits. */
  function ParseDecimal(s: string): int
  {
    if |s| > 0 && s[0] == '-' then -DigitsValue(s[1..]) else DigitsValue(s)
  }

  lemma {:induction false} NaturalStringRoundTrip(n: nat)
    ensures DigitsValue(NaturalString(n)) == n
  {
    if n >= 10 {
      var s := NaturalString(n / 10);
      NaturalStringRoundTrip(n / 10);
      assert (s + [DigitChar(n % 10)])[..|s|] == s;
    }
  }

  /** The decimal rendering of a tag id is non-empty and reads back as the id. */
  lemma DecimalStringRoundTrip(n: int)
    ensures |DecimalString(n)| > 0
    ensures ParseDecimal(DecimalString(n)) == n
  {
    if n < 0 {
      NaturalStringRoundTrip(-n);
      assert DecimalString(n)[1..] == NaturalString(-n);
    } else {
      NaturalStringRoundTrip(n);
    }
  }

  /** `ExifTags.TAGS.get(tag_id, tag_id)`, formatted with `str`. */
  function Label(names: map<int, string>, id: int): (text: string)
    ensures id !in names ==> text != ""
  {
    if id in names then names[id] else DecimalString(id)
  }

  /** A tag the name table knows is shown by its name; any other tag is shown
      by its id, which the label spells in decimal. Labels are never empty
      when the table has no empty names. */
  lemma LabelSpec(names: map<int, string>, id: int)
    ensures id in names ==> Label(names, id) == names[id]
    ensures id !in names ==> ParseDecimal(Label(names, id)) == id
    ensures (forall t :: t in names ==> names[t] != "") ==> Label(names, id) != ""
  {
    DecimalStringRoundTrip(id);
  }

  /** `render` applied to each entry, appended in order: the shape of the
      loop that fills the combo box and the transcript. */
  function Rendered<V, T>(render: Entry<V> -> T, md: Metadata<V>): (out: seq<T>)
    ensures |out| == |md|
  {
    if md == [] then []
    else Rendered(render, md[..|md| - 1]) + [render(md[|md| - 1])]
  }

  /** Element `k` of the rendering is the rendering of entry `k`. */
  lemma {:induction false} RenderedAt<V, T>(render: Entry<V> -> T, md: Metadata<V>, k: nat)
    requires k < |md|
    ensures Rendered(render, md)[k] == render(md[k])
  {
    var n := |md| - 1;
    if k < n {
      RenderedAt(render, md[..n], k);
      assert md[..n][k] == md[k];
    }
  }

  /** The combo-box item for one entry: its label as text, its id as data. */
  function Item<V>(names: map<int, string>, e: Entry<V>): ComboItem
  {
    ComboItem(Label(names, e.id), e.id)
  }

  /** The combo-box items for the entries, appended in order. */
  function Items<V>(names: map<int, string>, md: Metadata<V>): (items: seq<ComboItem>)
    ensures |items| == |md|
  {
    Rendered(e => Item(names, e), md)
  }

  /** The transcript line for one entry: its label, a colon and a space, and its value. */
  function Line<V>(names: map<int, string>, show: V -> string, e: Entry<V>): string
  {
    Label(names, e.id) + ": " + show(e.value)
  }

  /** The transcript lines for the entries, appended in order. */
  function Lines<V>(names: map<int, string>, show: V -> string, md: Metadata<V>): (lines: seq<string>)
    ensures |lines| == |md|
  {
    Rendered(e => Line(names, show, e), md)
  }

  /** One item per entry, in iteration order, labelled by the tag's name and
      carrying the tag's id. */
  lemma ItemsSpec<V>(names: map<int, string>, md: Metadata<V>)
    ensures |Items(names, md)| == |md|
    ensures forall k :: 0 <= k < |md| ==> Items(names, md)[k] == ComboItem(Label(names, md[k].id), md[k].id)
  {
    forall k | 0 <= k < |md|
      ensures Items(names, md)[k] == ComboItem(Label(names, md[k].id), md[k].id)
    {
      RenderedAt(e => Item(names, e), md, k);
    }
  }

  /** One `name: value` line per entry, in iteration order. */
  lemma LinesSpec<V>(names: map<int, string>, show: V -> string, md: Metadata<V>)
    ensures |Lines(names, show, md)| == |md|
    ensures forall k :: 0 <= k < |md| ==> Lines(names, show, md)[k] == Label(names, md[k].id) + ": " + show(md[k].value)
  {
    forall k | 0 <= k < |md|
      ensures Lines(names, show, md)[k] == Label(names, md[k].id) + ": " + show(md[k].value)
    {
      RenderedAt(e => Line(names, show, e), md, k);
    }
  }
}

=== FILE: wrappers.dfy ===
/** Failure-compatible wrappers used across the model. */
module Wrappers {

  /** A value that may be absent (Python's `None`). */
  datatype Option<+T> = None | Some(value: T)

  /** The outcome of a call that may raise: its value, or the text of the exception. */
  datatype Result<+R, +E> = Success(value: R) | Failure(error: E)
}
